=== FILE: README.md ===
# Authentication, session and profile logic of the fitness-tracking backend

A Dafny model of the decision logic in the backend's user handlers
(`backend/handler/user.go`) and of the statements its credential store
builds (`backend/database/user.go`).

- **Bearer guard** (`Bearer`): the `Authorization` header check the
  logout, profile and profile-update handlers share.
- **Handlers** (`Handlers`): signup, login, logout, profile read and
  profile update, each a pure function from an environment of oracles
  (the repository layer, the JWT library, uuid generation, float parsing)
  and the decoded request to a `Response`. A response holds the status,
  the body, and the ordered list of calls made to collaborators. That
  list is what lets the contracts say "no token was requested", "the
  token is validated only after the header guard passes" and "the
  update targets the token's subject".
- **Durations** (`Durations`): Go's `time.Duration` as a signed 64-bit
  nanosecond count with explicit wrap-around, `int(d.Seconds())` as
  truncating division, and the total-time fold of
  `GetTotalDistanceAndTime`.
- **Credential store** (`Database`, `SqlText`): the INSERT, SELECT and
  UPDATE statements as text, an idealised SQL lexer that reads quoted
  literals back out of them, and the sparse record update that
  `PutUser`'s SET clause stands for.
- **Sessions** (`Sessions`): the handlers run against a map-backed store
  and a token service whose tokens validate to their subject.

Behaviour of the code as written that differs from what a reader of the
handlers would expect; the model follows the code:

- A failed signup is always a 500. A duplicate username is not surfaced
  as a conflict of its own.
- The signup response's `user_id` and the profile response's `user_id`
  are never filled in. `GetUser` never scans the id column either.
- The profile handler reads the static fields for the token's subject
  but the best and total records for the path's `userId`. Any valid
  token can read another user's aggregates.
- The update handler forwards only the profile image and the weekly goal
  to the repository. It never forwards the nickname, and the body's own
  user id is ignored.
- Signup is not atomic. When token issuance fails after the user was
  created, the answer is 500 but the account stays. A retry with the
  same username then fails as a duplicate.
- Logout requests a zero-lifetime token and throws it away. The response
  carries only a message. With token functions that keep no state, as
  for a stateless JWT, the presented token therefore stays valid.
- `database.PutUser` with all three fields empty sends an UPDATE with an
  empty SET list (see Findings). An update that sets nothing should
  instead succeed without touching the store.
- The profile handler answers 500 after all its lookups when a distance
  is NaN or infinite. This includes a best distance that `ParseFloat`
  reads as such, because `json.Marshal` refuses to encode those values.

## Model

| member | source | states |
|---|---|---|
| Bearer.ExtractBearer | backend/handler/user.go:135-143 | a header is accepted iff it starts with `"Bearer "` (so headers shorter than 7 characters are refused), and then `"Bearer " + token == header` |
| Bearer.BearerRoundTrip | backend/handler/user.go:136-143 | for every token t, the guard extracts exactly t from `"Bearer " + t` |
| Handlers.Authenticate | backend/handler/user.go:180-195 | the guard refuses before any validation; otherwise exactly the extracted token is validated and its subject becomes the requestor |
| Handlers.SignUp | backend/handler/user.go:24-53 | a decoded body makes exactly one creation call for the fresh id, followed by one token request only if the creation succeeded, and nothing else; a malformed body makes no call; a malformed body or a failed user creation gives 500 with no token requested; success requests one token for the fresh id with the 1200-hour lifetime and answers with an empty `user_id` |
| Handlers.Login | backend/handler/user.go:77-120 | 200 iff the stored password equals the given one and both the id lookup and token issuance succeed; a failed password lookup gives 401 and a mismatch gives 403, both after only the password lookup and with no token; success requests exactly one token, for the looked-up id, with the 1200-hour lifetime, and returns it with that id; login never writes |
| Handlers.Logout | backend/handler/user.go:134-163 | an unauthenticated request gives 401; 500 iff authenticated and the zero-lifetime token cannot be issued, so otherwise 200; the calls are one validation and one zero-lifetime token request for the same subject; on 200 the body is only the message, and nothing is written |
| Handlers.GetBestRecordByUserId | backend/handler/user.go:314-316 | the handler-level lookup adds nothing: its answer is the repository's best record for the same id |
| Handlers.BestOrDefault | backend/handler/user.go:204-209 | a failed best-record lookup is replaced by `"0.00"` and 0; a successful one is passed through |
| Handlers.Profile | backend/handler/user.go:176-252 | 200 iff authenticated, the subject's user lookup and the path id's total lookup succeed, and both the total distance and the parsed best distance are finite (json.Marshal rejects NaN and infinities); the best-record lookup's own failure does not matter; static fields come from the subject, aggregates from the path id, totals are truncated to whole seconds, and `user_id` is empty |
| Handlers.ProfileWithoutBestRecord | backend/handler/user.go:204-246 | when "0.00" parses to zero, a missing best record never aborts: 200 iff authenticated, the user and total lookups succeed and the total distance is finite, and the best record shows distance 0 and time 0 |
| Handlers.UpdateProfile | backend/handler/user.go:260-299 | the token is checked before the body; an undecodable body writes nothing; every update call is made with a decoded body and targets the token's subject with that body's profile image and weekly goal; 200 iff authenticated, the body decodes and the update succeeds |
| Durations.Wrap | backend/handler/user.go:325-330 | the result is the int64 congruent to its argument modulo 2^64, and in-range values are unchanged |
| Durations.WrapAbsorbs | backend/handler/user.go:330 | wrapping an intermediate sum does not change the wrapped total |
| Durations.WholeSeconds | backend/handler/user.go:236 | the whole seconds of a duration, truncated toward zero, bracket the duration |
| Durations.Contribution | backend/handler/user.go:329 | a record whose time text does not parse contributes 0; otherwise its parsed duration |
| Durations.GetTotalDistanceAndTime | backend/handler/user.go:318-333 | a fetch error gives 0 and that error; otherwise no error and the int64 (wrapping) sum of the parsed durations, which is 0 for no records |
| Durations.RawTotalPermutation | backend/handler/user.go:327-331 | any permutation of the records gives the same total time |
| Durations.UnparseableContributeNothing | backend/handler/user.go:329-330 | dropping the records whose time does not parse leaves the total unchanged |
| SqlText.LiteralRoundTrip | backend/database/user.go:25 | a value embedded between quotes reads back as exactly itself, with the following text intact, iff it contains no quote |
| SqlText.ValueListRoundTrip | backend/database/user.go:15 | quote-free values joined as quoted literals read back as the same values in the same order |
| Database.InsertUserStatement | backend/database/user.go:14-15 | the INSERT is its head naming username, password, email, nickname, then the four values each between quotes, unescaped, joined by `, `, then `)`; with quote-free values it reads back as exactly those four values in that order; a username containing a quote is never read back as itself |
| Database.UserIdQuery | backend/database/user.go:25 | the statement is the fixed head followed by the username between quotes, unescaped; the key reads back as itself iff it contains no quote |
| Database.PasswordQuery | backend/database/user.go:34 | the same unescaped key embedding for the password lookup |
| Database.UserQuery | backend/database/user.go:43 | the same unescaped key embedding for the lookup by user id |
| Database.GetUserID | backend/database/user.go:23-30 | on a failed scan the result is 0 with the error; otherwise the scanned id with no error |
| Database.GetPassword | backend/database/user.go:32-39 | on a failed scan the result is `""` with the error; otherwise the scanned password with no error |
| Database.GetUser | backend/database/user.go:41-48 | the five scanned columns land in their fields, and the user id is always empty |
| Database.SetAssignments | backend/database/user.go:51-60 | one assignment per non-empty argument, in the fixed order nickname, profile_image, weekly_goal; a column is assigned iff its argument is non-empty |
| Database.SetAssignmentsInFixedOrder | backend/database/user.go:52-60 | the assigned columns appear in strictly increasing fixed order, each at most once |
| Database.NonEmptyFieldsMembers | backend/database/user.go:52-60 | a field is kept iff it is requested and its value is non-empty |
| Database.SetClause | backend/database/user.go:51-61 | the SET list is the rendered non-empty assignments, values unescaped, joined by `, `; it is empty iff all three arguments are empty |
| Database.SetClauseReadsBack | backend/database/user.go:51-61 | with quote-free values, the SET list reads back as the non-empty (column, value) pairs in the fixed order |
| Database.ApplyProfileUpdate | backend/database/user.go:50-63 | non-empty arguments overwrite their columns; empty ones, the id, the username and the email are left unchanged |
| Database.SparseAssignmentsApply | backend/database/user.go:50-63 | applying the SET list's pairs in order to any row is exactly the sparse update |
| Database.PutUserStatement | backend/database/user.go:61-63 | the UPDATE is the fixed head, the SET list, and the user id between quotes, unescaped; the id reads back as itself iff it contains no quote |
| Database.EmptyUpdateHasNoAssignment | backend/database/user.go:61-63 | as written, an all-empty update sends `UPDATE users SET  WHERE id='…'` |
| Database.UpdateStatement | backend/database/user.go:61-63 | no statement is sent iff all three fields are empty; any statement that is sent has a non-empty SET list |
| Database.PutUserSparse | backend/database/user.go:50-69 | an all-empty update succeeds without touching the store; any other update behaves as `PutUser` |
| Sessions.LoginAgainstStore | backend/handler/user.go:83-109 | against a map store: 401 iff the username is unknown, 403 iff it is known with a different password; success requests the stored id's token; 500 only when the token library fails |
| Sessions.SignUpDuplicateUsername | backend/handler/user.go:31-36 | against a map store, a taken username gives 500 and no token is requested |
| Sessions.LoginSessionIdentifiesUser | backend/handler/user.go:96-104 | if issued tokens validate to their subject, the login token authenticates as the looked-up id, and a profile update made with it targets that id |
| Sessions.SignUpSessionIdentifiesUser | backend/handler/user.go:31-39 | if issued tokens validate to their subject, the signup token authenticates as the fresh id |
| Sessions.SignUpTokenFailureKeepsAccount | backend/handler/user.go:31-44 | against a map store, a token failure after a successful creation answers 500 although the creation went through, and a retry with the same username then fails with no token requested |
| Sessions.LogoutKeepsSession | backend/handler/user.go:145-163 | with a login token, logout answers 200 iff the zero-lifetime token can be issued and writes nothing; with stateless token functions the same header still authenticates as the same user |
| Sessions.ProfileWithLoginToken | backend/handler/user.go:190-246 | with a login token, the profile's username, nickname, profile image and weekly goal are the logged-in user's, its total distance and time are the path id's whoever that is, 200 iff those lookups succeed with finite distances, and a missing best record shows time 0 |

## Left out

- HTTP plumbing is left out: reading bodies, JSON encoding and decoding, CORS headers, `OptionHandler` and logging. A body that fails to decode is modelled as an absent request. `json.Marshal` of the signup, login and update responses cannot fail, because they hold only strings, so those error branches are not modelled. The profile response's marshal failure on a non-finite distance is modelled.
- The update body is decoded into a `repository.User`, which is not part of this model. `Handlers.ProfileUpdateRequest` holds only the two fields the handler reads, the profile image and the weekly goal.
- Float values are modelled as a finite real or a single non-finite value. NaN, +Inf and -Inf are not told apart, since the handlers treat them alike.
- The `repository` package is not part of this model. Handlers call it through oracles in `Env`. Its signatures differ from `database` (`CreateUser` takes five arguments, `PutUser` three), so the handlers' calls are not tied to `Database`'s functions. The user record a profile lookup returns reuses the shape of `Database.User`.
- The `auth` package is not part of this model. `GenerateJwtToken` and `ValidateJwtToken` are oracles. Token expiry depends on a clock the source does not pass in, so "a zero-lifetime token is already expired" is not stated.
- The token functions are pure: issuing a token has no effect on later validations, as with a stateless JWT. The `auth` package is not part of this model, so logout cannot revoke anything here, although the source's comment at the zero-lifetime call speaks of deleting the token. Sessions.LogoutKeepsSession states the surviving session under that assumption only.
- `uuid.NewString` is left out. Its result is a parameter of `Handlers.SignUp`.
- Float arithmetic is left out. Distances are passed through and never computed with. `strconv.ParseFloat` is an oracle that returns a finite value or the non-finite marker.
- Durations.GetTotalDistanceAndTime: returns only the time total. The distance sum `d += r.Distance` is float accumulation and is left out.
- Durations.WholeSeconds: treats `int(d.Seconds())` as exact truncating division. The float64 rounding of `Seconds()` for very large durations is not modelled.
- `repository.GetTotalSessions` is assumed never to return a nil record pointer without an error. In the source, `range *records` would then panic, and a `Result` cannot express that case.
- `time.ParseDuration` is an abstract partial parser. On failure it contributes 0, as Go's does.
- The database engine is left out. Each statement goes to an oracle that returns the scanned values or an error. SQL semantics, and what an injected statement would do, are not modelled.
- SqlText.LiteralRoundTrip: the lexer ends a literal at the first quote. SQL's doubled-quote escape is not modelled.
- Database.GetUser: after a failed scan it returns the empty user. Go may return a partly filled one.
- Database.CreateUser and Database.PutUser only pass their statement to the engine. Their contracts are those of the statement builders.
- `len` in Go counts bytes, and the model counts characters. The two agree on the guard, because `"Bearer "` is ASCII.

## Findings

| source | as written | input that shows it | evidently intended | confidence | as-written member | corrected member |
|---|---|---|---|---|---|---|
| backend/database/user.go:61-63 | the UPDATE is sent even when no field is set, which leaves an empty SET list | nickname, profileImage and weeklyGoal all `""` give `UPDATE users SET  WHERE id='<id>'`, which SQL rejects, so PutUser returns an error | an update with no fields is a no-op that succeeds without sending a statement | not executed; medium | Database.EmptyUpdateHasNoAssignment | Database.PutUserSparse |

=== FILE: bearer.dfy ===
/** The Authorization-header guard the profile and session handlers share
    (backend/handler/user.go). */
module Bearer {
  import opened Wrappers

  /** The scheme prefix, including its trailing space: seven characters. */
  const Scheme: string := "Bearer "

  /** The token carried by an `Authorization: Bearer <token>` header. The
      header is accepted exactly when it begins with the scheme prefix, and
      the token is everything after it, possibly empty. */
  function ExtractBearer(header: string): (token: Option<string>)
    ensures token.Some? <==> Scheme <= header
    ensures token.Some? ==> Scheme + token.value == header
    ensures |header| < |Scheme| ==> token.None?
  {
    if header == "" || |header| < 7 || header[..7] != "Bearer " then None
    else
      assert header == header[..7] + header[7..];
      Some(header[7..])
  }

  /** Prefixing any token with the scheme yields a header from which the
      guard extracts that very token. */
  lemma BearerRoundTrip(token: string)
    ensures ExtractBearer(Scheme + token) == Some(token)
  {
    assert (Scheme + token)[..7] == Scheme;
    assert (Scheme + token)[7..] == token;
  }
}

=== FILE: database.dfy ===
/** The credential store's statements (backend/database/user.go): how each
    SQL statement is built from its arguments, what the engine's lexer reads
    back out of it, and the record update an UPDATE statement stands for.
    The database connection is an oracle from statement text to outcome. */
module Database {
  import opened Wrappers
  import opened SqlText

  /** A user row as the store returns it. */
  datatype User = User(
    userId: string,
    username: string,
    profileImage: string,
    weeklyGoal: string,
    email: string,
    nickname: string)

  /** The five columns GetUser scans, in the order of its SELECT list. */
  datatype ProfileRow = ProfileRow(
    username: string,
    email: string,
    nickname: string,
    profileImage: string,
    weeklyGoal: string)

  /** The connection: `exec` runs a statement, the `query` oracles run a
      single-row query and scan its columns. */
  datatype Db = Db(
    exec: string -> Option<Error>,
    queryInt: string -> Result<int, Error>,
    queryText: string -> Result<string, Error>,
    queryProfile: string -> Result<ProfileRow, Error>)

  /** Go's `(value, error)` pair: the value is returned even with an error. */
  datatype Lookup<T> = Lookup(value: T, err: Option<Error>)

  const EmptyUser: User := User("", "", "", "", "", "")

  // ---------------------------------------------------------------- INSERT

  const InsertHead: string := "INSERT INTO users (username, password, email, nickname) VALUES ("
  /** The statement CreateUser runs: four values, each embedded verbatim
      between quotes. When no value holds a quote the lexer reads exactly
      the four values back, in column order, followed by the closing
      parenthesis; a username holding a quote is never read back as itself. */
  function InsertUserStatement(username: string, password: string, email: string, nickname: string): (q: string)
    ensures q == InsertHead + (Join(QuotedAll([username, password, email, nickname]), Separator) + ")")
    ensures QuoteFree(username) && QuoteFree(password) && QuoteFree(email) && QuoteFree(nickname) ==>
              ReadValueList(q[|InsertHead|..]) == Some(([username, password, email, nickname], ")"))
    ensures !QuoteFree(username) ==>
              ReadValueList(q[|InsertHead|..]).None? || ReadValueList(q[|InsertHead|..]).value.0[0] != username
  {
    var q := "INSERT INTO users (username, password, email, nickname) VALUES ('" + username + "', '" + password + "', '" + email + "', '" + nickname + "')";
    InsertStatementShape(username, password, email, nickname, q);
    InsertValuesReadBack(username, password, email, nickname, q);
    q
  }

  lemma InsertValuesReadBack(username: string, password: string, email: string, nickname: string, q: string)
    requires q == "INSERT INTO users (username, password, email, nickname) VALUES ('" + username + "', '" + password + "', '" + email + "', '" + nickname + "')"
    ensures InsertHead <= q
    ensures QuoteFree(username) && QuoteFree(password) && QuoteFree(email) && QuoteFree(nickname) ==>
              ReadValueList(q[|InsertHead|..]) == Some(([username, password, email, nickname], ")"))
  {
    var vs := [username, password, email, nickname];
    InsertStatementShape(username, password, email, nickname, q);
    assert q[|InsertHead|..] == Join(QuotedAll(vs), Separator) + ")";
    if QuoteFree(username) && QuoteFree(password) && QuoteFree(email) && QuoteFree(nickname) {
      ValueListRoundTrip(vs, ")");
    }
  }

  /** The INSERT is its head, the four quoted values joined by the
      separator, and the closing parenthesis. */
  lemma InsertStatementShape(username: string, password: string, email: string, nickname: string, q: string)
    requires q == "INSERT INTO users (username, password, email, nickname) VALUES ('" + username + "', '" + password + "', '" + email + "', '" + nickname + "')"
    ensures q == InsertHead + (Join(QuotedAll([username, password, email, nickname]), Separator) + ")")
  {
    var qs := QuotedAll([username, password, email, nickname]);
    assert qs == [Quoted(username), Quoted(password), Quoted(email), Quoted(nickname)];
    assert qs[1..][1..][1..] == [Quoted(nickname)];
    assert Join(qs[1..][1..], Separator) == Quoted(email) + Separator + Quoted(nickname);
    assert Join(qs[1..], Separator) == Quoted(password) + Separator + Join(qs[1..][1..], Separator);
    assert Join(qs, Separator) == Quoted(username) + Separator + Join(qs[1..], Separator);
    assert "INSERT INTO users (username, password, email, nickname) VALUES ('" == InsertHead + [QuoteChar];
    assert "', '" == [QuoteChar] + Separator + [QuoteChar];
    assert "')" == [QuoteChar] + ")";
    ConcatQuoted(InsertHead, [QuoteChar], Separator, ")", username, password, email, nickname);
  }

  /** Regrouping of the INSERT text, stated over arbitrary pieces. */
  lemma ConcatQuoted(head: string, quote: string, sep: string, close: string, a: string, b: string, c: string, d: string)
    ensures (head + quote) + a + (quote + sep + quote) + b + (quote + sep + quote) + c + (quote + sep + quote) + d + (quote + close)
            == head + ((quote + a + quote) + sep + ((quote + b + quote) + sep + ((quote + c + quote) + sep + (quote + d + quote))) + close)
  {
  }

  /** CreateUser runs the INSERT; its error, if any, is the driver's. */
  function CreateUser(db: Db, username: string, password: string, email: string, nickname: string): Option<Error> {
    db.exec(InsertUserStatement(username, password, email, nickname))
  }

  // --------------------------------------------------------------- lookups

  const UserIdHead: string := "SELECT id FROM users WHERE username="
  const PasswordHead: string := "SELECT password FROM users WHERE username="
  const UserHead: string := "SELECT username, email, nickname, profile_image, weekly_goal FROM users WHERE id="

  /** The lookup statement of GetUserID: the key sits verbatim, without
      any escaping, between the quotes that end the statement, and the lexer reads it back as the
      whole key, with nothing after it, exactly when it holds no quote. */
  function UserIdQuery(username: string): (q: string)
    ensures q == UserIdHead + Quoted(username)
    ensures ReadLiteral(q[|UserIdHead|..]) == Some((username, "")) <==> QuoteFree(username)
  {
    var q := "SELECT id FROM users WHERE username='" + username + "'";
    assert q == UserIdHead + (Quoted(username) + "");
    LiteralRoundTrip(username, "");
    q
  }

  /** The lookup statement of GetPassword, with the same key embedding. */
  function PasswordQuery(username: string): (q: string)
    ensures q == PasswordHead + Quoted(username)
    ensures ReadLiteral(q[|PasswordHead|..]) == Some((username, "")) <==> QuoteFree(username)
  {
    var q := "SELECT password FROM users WHERE username='" + username + "'";
    assert q == PasswordHead + (Quoted(username) + "");
    LiteralRoundTrip(username, "");
    q
  }

  /** The lookup statement of GetUser, keyed by the user id. */
  function UserQuery(userId: string): (q: string)
    ensures q == UserHead + Quoted(userId)
    ensures ReadLiteral(q[|UserHead|..]) == Some((userId, "")) <==> QuoteFree(userId)
  {
    var q := "SELECT username, email, nickname, profile_image, weekly_goal FROM users WHERE id='" + userId + "'";
    assert q == UserHead + (Quoted(userId) + "");
    LiteralRoundTrip(userId, "");
    q
  }

  /** GetUserID: the scanned id, or 0 together with the error. */
  function GetUserID(db: Db, username: string): (r: Lookup<int>)
    ensures r.err.None? <==> db.queryInt(UserIdQuery(username)).Ok?
    ensures r.err.Some? ==> r.value == 0
    ensures r.err.None? ==> r.value == db.queryInt(UserIdQuery(username)).value
  {
    match db.queryInt(UserIdQuery(username))
    case Ok(uid) => Lookup(uid, None)
    case Err(e) => Lookup(0, Some(e))
  }

  /** GetPassword: the stored password, or "" together with the error. */
  function GetPassword(db: Db, username: string): (r: Lookup<string>)
    ensures r.err.None? <==> db.queryText(PasswordQuery(username)).Ok?
    ensures r.err.Some? ==> r.value == ""
    ensures r.err.None? ==> r.value == db.queryText(PasswordQuery(username)).value
  {
    match db.queryText(PasswordQuery(username))
    case Ok(pw) => Lookup(pw, None)
    case Err(e) => Lookup("", Some(e))
  }

  /** GetUser: the five scanned columns; the user id is never scanned, so
      it stays empty even on success. */
  function GetUser(db: Db, userId: string): (r: Lookup<User>)
    ensures r.value.userId == ""
    ensures r.err.None? <==> db.queryProfile(UserQuery(userId)).Ok?
    ensures r.err.Some? ==> r.value == EmptyUser
    ensures r.err.None? ==>
              var row := db.queryProfile(UserQuery(userId)).value;
              && r.value.username == row.username
              && r.value.email == row.email
              && r.value.nickname == row.nickname
              && r.value.profileImage == row.profileImage
              && r.value.weeklyGoal == row.weeklyGoal
  {
    match db.queryProfile(UserQuery(userId))
    case Ok(row) => Lookup(User("", row.username, row.profileImage, row.weeklyGoal, row.email, row.nickname), None)
    case Err(e) => Lookup(EmptyUser, Some(e))
  }

  // ---------------------------------------------------------------- UPDATE

  /** The three profile columns PutUser may assign, in the order it tests them. */
  datatype Column = Nickname | ProfileImage | WeeklyGoal

  function ColumnName(c: Column): string {
    match c
    case Nickname => "nickname"
    case ProfileImage => "profile_image"
    case WeeklyGoal => "weekly_goal"
  }

  /** Position of a column in PutUser's fixed order. */
  function Rank(c: Column): nat {
    match c
    case Nickname => 0
    case ProfileImage => 1
    case WeeklyGoal => 2
  }

  /** The text in front of an assigned value. */
  function AssignHead(c: Column): string {
    ColumnName(c) + " = "
  }

  /** One `column = 'value'` assignment of a SET clause. */
  function Assignment(c: Column, v: string): string {
    AssignHead(c) + Quoted(v)
  }

  /** The requested fields, in the fixed order nickname, profile_image, weekly_goal. */
  function FieldsInOrder(nickname: string, profileImage: string, weeklyGoal: string): seq<(Column, string)> {
    [(Nickname, nickname), (ProfileImage, profileImage), (WeeklyGoal, weeklyGoal)]
  }

  /** Columns appear in strictly increasing rank, hence each at most once. */
  ghost predicate StrictlyRanked(fields: seq<(Column, string)>) {
    forall i, j :: 0 <= i < j < |fields| ==> Rank(fields[i].0) < Rank(fields[j].0)
  }

  /** The fields whose value is not empty, in their original order. */
  function NonEmptyFields(fields: seq<(Column, string)>): (r: seq<(Column, string)>)
    ensures |r| <= |fields|
    decreases |fields|
  {
    if fields == [] then []
    else if fields[0].1 != "" then [fields[0]] + NonEmptyFields(fields[1..])
    else NonEmptyFields(fields[1..])
  }

  /** A field is kept exactly when it is present and its value is not empty. */
  lemma {:induction false} NonEmptyFieldsMembers(fields: seq<(Column, string)>)
    ensures forall f :: f in NonEmptyFields(fields) <==> f in fields && f.1 != ""
    decreases |fields|
  {
    if fields != [] {
      NonEmptyFieldsMembers(fields[1..]);
      assert forall f :: f in fields <==> f == fields[0] || f in fields[1..];
    }
  }

  /** Filtering keeps the relative order of the fields it keeps. */
  lemma {:induction false} NonEmptyFieldsKeepOrder(fields: seq<(Column, string)>)
    ensures StrictlyRanked(fields) ==> StrictlyRanked(NonEmptyFields(fields))
    decreases |fields|
  {
    if fields != [] {
      NonEmptyFieldsKeepOrder(fields[1..]);
      NonEmptyFieldsMembers(fields[1..]);
      assert StrictlyRanked(fields) ==> StrictlyRanked(fields[1..]);
      if fields[0].1 != "" {
        FilterKeepsRank(fields, NonEmptyFields(fields[1..]));
      }
    }
  }

  /** The columns PutUser assigns appear in the fixed order nickname,
      profile_image, weekly_goal, each at most once. */
  lemma SetAssignmentsInFixedOrder(nickname: string, profileImage: string, weeklyGoal: string)
    ensures StrictlyRanked(NonEmptyFields(FieldsInOrder(nickname, profileImage, weeklyGoal)))
  {
    NonEmptyFieldsKeepOrder(FieldsInOrder(nickname, profileImage, weeklyGoal));
  }

  lemma FilterKeepsRank(fields: seq<(Column, string)>, rest: seq<(Column, string)>)
    requires |fields| > 0
    requires forall f :: f in rest ==> f in fields[1..]
    requires StrictlyRanked(fields[1..]) ==> StrictlyRanked(rest)
    ensures StrictlyRanked(fields) ==> StrictlyRanked([fields[0]] + rest)
  {
    if StrictlyRanked(fields) {
      assert StrictlyRanked(fields[1..]);
      forall f | f in rest ensures Rank(fields[0].0) < Rank(f.0) {
        var k :| 0 <= k < |fields[1..]| && fields[1..][k] == f;
        assert fields[k + 1] == f;
      }
      var r := [fields[0]] + rest;
      forall i, j | 0 <= i < j < |r| ensures Rank(r[i].0) < Rank(r[j].0) {
        if i == 0 { assert r[j] in rest; } else { assert r[i] == rest[i - 1] && r[j] == rest[j - 1]; }
      }
    }
  }

  /** Every field rendered as an assignment, in order. */
  function Render(fields: seq<(Column, string)>): (r: seq<string>)
    ensures |r| == |fields|
    ensures forall i :: 0 <= i < |fields| ==> r[i] == Assignment(fields[i].0, fields[i].1)
    decreases |fields|
  {
    if fields == [] then [] else [Assignment(fields[0].0, fields[0].1)] + Render(fields[1..])
  }

  function CountNonEmpty(nickname: string, profileImage: string, weeklyGoal: string): nat {
    (if nickname != "" then 1 else 0) + (if profileImage != "" then 1 else 0) + (if weeklyGoal != "" then 1 else 0)
  }

  lemma AssignmentsDiffer(c: Column, v: string, d: Column, w: string)
    requires Assignment(c, v) == Assignment(d, w)
    ensures c == d && v == w
  {
    var s := Assignment(c, v);
    assert s[0] == ColumnName(c)[0] && s[0] == ColumnName(d)[0];
    assert c == d;
    assert |v| == |w|;
    assert s[|AssignHead(c)|..] == Quoted(v) == Quoted(w);
    assert v == Quoted(v)[1..|v| + 1] == Quoted(w)[1..|w| + 1] == w;
  }

  /** The assignments PutUser collects: one per non-empty argument, in
      the fixed order nickname, profile_image, weekly_goal, so that an
      assignment of a column is present exactly when its argument is
      non-empty. */
  function SetAssignments(nickname: string, profileImage: string, weeklyGoal: string): (r: seq<string>)
    ensures r == Render(NonEmptyFields(FieldsInOrder(nickname, profileImage, weeklyGoal)))
    ensures |r| == CountNonEmpty(nickname, profileImage, weeklyGoal)
    ensures Assignment(Nickname, nickname) in r <==> nickname != ""
    ensures Assignment(ProfileImage, profileImage) in r <==> profileImage != ""
    ensures Assignment(WeeklyGoal, weeklyGoal) in r <==> weeklyGoal != ""
  {
    var query: seq<string> := [];
    var query := if nickname != "" then query + [Assignment(Nickname, nickname)] else query;
    var query := if profileImage != "" then query + [Assignment(ProfileImage, profileImage)] else query;
    var query := if weeklyGoal != "" then query + [Assignment(WeeklyGoal, weeklyGoal)] else query;
    SetAssignmentsFacts(nickname, profileImage, weeklyGoal, query);
    query
  }

  /** A single field when its value is non-empty, nothing otherwise. */
  function Present(c: Column, v: string): seq<(Column, string)> {
    if v == "" then [] else [(c, v)]
  }

  lemma NonEmptyFieldsInOrder(nickname: string, profileImage: string, weeklyGoal: string)
    ensures NonEmptyFields(FieldsInOrder(nickname, profileImage, weeklyGoal))
            == Present(Nickname, nickname) + Present(ProfileImage, profileImage) + Present(WeeklyGoal, weeklyGoal)
  {
    var fs := FieldsInOrder(nickname, profileImage, weeklyGoal);
    assert fs[1..] == [(ProfileImage, profileImage), (WeeklyGoal, weeklyGoal)];
    NonEmptyFieldsOfTwo(profileImage, weeklyGoal);
    NonEmptyFieldsStep(fs);
    assert Present(Nickname, nickname) + (Present(ProfileImage, profileImage) + Present(WeeklyGoal, weeklyGoal))
        == Present(Nickname, nickname) + Present(ProfileImage, profileImage) + Present(WeeklyGoal, weeklyGoal);
  }

  lemma NonEmptyFieldsOfTwo(profileImage: string, weeklyGoal: string)
    ensures NonEmptyFields([(ProfileImage, profileImage), (WeeklyGoal, weeklyGoal)])
            == Present(ProfileImage, profileImage) + Present(WeeklyGoal, weeklyGoal)
  {
    var fs := [(ProfileImage, profileImage), (WeeklyGoal, weeklyGoal)];
    assert fs[1..] == [(WeeklyGoal, weeklyGoal)];
    NonEmptyFieldsOfOne(weeklyGoal);
    NonEmptyFieldsStep(fs);
  }

  lemma NonEmptyFieldsOfOne(weeklyGoal: string)
    ensures NonEmptyFields([(WeeklyGoal, weeklyGoal)]) == Present(WeeklyGoal, weeklyGoal)
  {
    var fs := [(WeeklyGoal, weeklyGoal)];
    assert fs[1..] == [];
    NonEmptyFieldsStep(fs);
    assert Present(WeeklyGoal, weeklyGoal) + [] == Present(WeeklyGoal, weeklyGoal);
  }

  lemma NonEmptyFieldsStep(fields: seq<(Column, string)>)
    requires |fields| > 0
    ensures NonEmptyFields(fields) == Present(fields[0].0, fields[0].1) + NonEmptyFields(fields[1..])
  {
  }

  lemma RenderAppend(a: seq<(Column, string)>, b: seq<(Column, string)>)
    ensures Render(a + b) == Render(a) + Render(b)
  {
    var l, r := Render(a + b), Render(a) + Render(b);
    assert |l| == |r|;
    forall i | 0 <= i < |l| ensures l[i] == r[i] {
      if i < |a| { assert (a + b)[i] == a[i]; } else { assert (a + b)[i] == b[i - |a|]; }
    }
  }

  lemma SetAssignmentsFacts(nickname: string, profileImage: string, weeklyGoal: string, query: seq<string>)
    requires query ==
      (if nickname != "" then [Assignment(Nickname, nickname)] else [])
      + (if profileImage != "" then [Assignment(ProfileImage, profileImage)] else [])
      + (if weeklyGoal != "" then [Assignment(WeeklyGoal, weeklyGoal)] else [])
    ensures query == Render(NonEmptyFields(FieldsInOrder(nickname, profileImage, weeklyGoal)))
    ensures |query| == CountNonEmpty(nickname, profileImage, weeklyGoal)
    ensures Assignment(Nickname, nickname) in query <==> nickname != ""
    ensures Assignment(ProfileImage, profileImage) in query <==> profileImage != ""
    ensures Assignment(WeeklyGoal, weeklyGoal) in query <==> weeklyGoal != ""
  {
    SetAssignmentsRender(nickname, profileImage, weeklyGoal, query);
    SetAssignmentsMembers(nickname, profileImage, weeklyGoal, query);
    OnlyNonEmptyAssigned(nickname, profileImage, weeklyGoal, query);
  }

  lemma SetAssignmentsRender(nickname: string, profileImage: string, weeklyGoal: string, query: seq<string>)
    requires query ==
      (if nickname != "" then [Assignment(Nickname, nickname)] else [])
      + (if profileImage != "" then [Assignment(ProfileImage, profileImage)] else [])
      + (if weeklyGoal != "" then [Assignment(WeeklyGoal, weeklyGoal)] else [])
    ensures query == Render(NonEmptyFields(FieldsInOrder(nickname, profileImage, weeklyGoal)))
  {
    var p1, p2, p3 := Present(Nickname, nickname), Present(ProfileImage, profileImage), Present(WeeklyGoal, weeklyGoal);
    NonEmptyFieldsInOrder(nickname, profileImage, weeklyGoal);
    RenderAppend(p1 + p2, p3);
    RenderAppend(p1, p2);
    assert Render(p1) == (if nickname != "" then [Assignment(Nickname, nickname)] else []);
    assert Render(p2) == (if profileImage != "" then [Assignment(ProfileImage, profileImage)] else []);
    assert Render(p3) == (if weeklyGoal != "" then [Assignment(WeeklyGoal, weeklyGoal)] else []);
  }

  lemma SetAssignmentsMembers(nickname: string, profileImage: string, weeklyGoal: string, query: seq<string>)
    requires query ==
      (if nickname != "" then [Assignment(Nickname, nickname)] else [])
      + (if profileImage != "" then [Assignment(ProfileImage, profileImage)] else [])
      + (if weeklyGoal != "" then [Assignment(WeeklyGoal, weeklyGoal)] else [])
    ensures |query| == CountNonEmpty(nickname, profileImage, weeklyGoal)
    ensures nickname != "" ==> Assignment(Nickname, nickname) in query
    ensures profileImage != "" ==> Assignment(ProfileImage, profileImage) in query
    ensures weeklyGoal != "" ==> Assignment(WeeklyGoal, weeklyGoal) in query
    ensures forall x :: x in query ==>
      || (x == Assignment(Nickname, nickname) && nickname != "")
      || (x == Assignment(ProfileImage, profileImage) && profileImage != "")
      || (x == Assignment(WeeklyGoal, weeklyGoal) && weeklyGoal != "")
  {
  }

  lemma OnlyNonEmptyAssigned(nickname: string, profileImage: string, weeklyGoal: string, query: seq<string>)
    requires forall x :: x in query ==>
      || (x == Assignment(Nickname, nickname) && nickname != "")
      || (x == Assignment(ProfileImage, profileImage) && profileImage != "")
      || (x == Assignment(WeeklyGoal, weeklyGoal) && weeklyGoal != "")
    ensures forall c, v :: Assignment(c, v) in query ==> v != ""
  {
    forall c, v | Assignment(c, v) in query ensures v != "" {
      var x := Assignment(c, v);
      if x == Assignment(Nickname, nickname) && nickname != "" { AssignmentsDiffer(c, v, Nickname, nickname); }
      else if x == Assignment(ProfileImage, profileImage) && profileImage != "" { AssignmentsDiffer(c, v, ProfileImage, profileImage); }
      else { AssignmentsDiffer(c, v, WeeklyGoal, weeklyGoal); }
    }
  }

  /** strings.Join of the assignments: empty when all three fields are. */
  function SetClause(nickname: string, profileImage: string, weeklyGoal: string): (c: string)
    ensures c == Join(Render(NonEmptyFields(FieldsInOrder(nickname, profileImage, weeklyGoal))), Separator)
    ensures nickname == "" && profileImage == "" && weeklyGoal == "" ==> c == ""
    ensures c == "" ==> nickname == "" && profileImage == "" && weeklyGoal == ""
  {
    var parts := SetAssignments(nickname, profileImage, weeklyGoal);
    assert |parts| > 0 ==> Join(parts, Separator)[0] == parts[0][0];
    Join(parts, Separator)
  }

  const UpdateHead: string := "UPDATE users SET "
  const WhereHead: string := " WHERE id="

  /** The UPDATE statement PutUser runs, as written: the SET list, then
      the user id embedded verbatim as the closing literal, which the
      lexer reads back as the whole id exactly when it holds no quote. */
  function PutUserStatement(userId: string, nickname: string, profileImage: string, weeklyGoal: string): (q: string)
    ensures q == UpdateHead + SetClause(nickname, profileImage, weeklyGoal) + WhereHead + Quoted(userId)
    ensures var key := |UpdateHead + SetClause(nickname, profileImage, weeklyGoal) + WhereHead|;
            ReadLiteral(q[key..]) == Some((userId, "")) <==> QuoteFree(userId)
  {
    var c := SetClause(nickname, profileImage, weeklyGoal);
    var q := "UPDATE users SET " + c + " WHERE id='" + userId + "'";
    UpdateStatementShape(c, userId, q);
    q
  }

  /** The UPDATE is its head, the SET list, the WHERE head and the quoted
      id, stated for any SET list. */
  lemma UpdateStatementShape(c: string, userId: string, q: string)
    requires q == "UPDATE users SET " + c + " WHERE id='" + userId + "'"
    ensures q == UpdateHead + c + WhereHead + Quoted(userId)
    ensures ReadLiteral(q[|UpdateHead + c + WhereHead|..]) == Some((userId, "")) <==> QuoteFree(userId)
  {
    assert " WHERE id='" == WhereHead + [QuoteChar];
    assert q == (UpdateHead + c + WhereHead) + (Quoted(userId) + "");
    LiteralRoundTrip(userId, "");
  }

  /** PutUser as written: the statement is run even when no field is set. */
  function PutUser(db: Db, userId: string, nickname: string, profileImage: string, weeklyGoal: string): Option<Error> {
    db.exec(PutUserStatement(userId, nickname, profileImage, weeklyGoal))
  }

  /** As written, an update with every field empty runs a statement whose
      SET keyword is followed directly by WHERE: no assignment at all,
      which no SQL engine accepts. */
  lemma EmptyUpdateHasNoAssignment(userId: string)
    ensures PutUserStatement(userId, "", "", "") == "UPDATE users SET  WHERE id=" + Quoted(userId)
  {
  }

  /** The statement an update should run: none when no field is set,
      otherwise the UPDATE with its non-empty SET list. */
  function UpdateStatement(userId: string, nickname: string, profileImage: string, weeklyGoal: string): (r: Option<string>)
    ensures r.None? <==> nickname == "" && profileImage == "" && weeklyGoal == ""
    ensures r.Some? ==> SetClause(nickname, profileImage, weeklyGoal) != "" && r.value == PutUserStatement(userId, nickname, profileImage, weeklyGoal)
  {
    if nickname == "" && profileImage == "" && weeklyGoal == "" then None
    else Some(PutUserStatement(userId, nickname, profileImage, weeklyGoal))
  }

  /** PutUser with the empty update treated as a successful no-op:
      nothing is sent to the engine and no error is returned. */
  function PutUserSparse(db: Db, userId: string, nickname: string, profileImage: string, weeklyGoal: string): (r: Option<Error>)
    ensures nickname == "" && profileImage == "" && weeklyGoal == "" ==> r.None?
    ensures CountNonEmpty(nickname, profileImage, weeklyGoal) > 0 ==> r == PutUser(db, userId, nickname, profileImage, weeklyGoal)
  {
    match UpdateStatement(userId, nickname, profileImage, weeklyGoal)
    case None => None
    case Some(statement) => db.exec(statement)
  }

  // ------------------------------------------- reading the SET clause back

  /** The column whose `name = ` heads `s`, if any. */
  function ColumnAt(s: string): (r: Option<Column>)
    ensures r.Some? ==> AssignHead(r.value) <= s
  {
    if AssignHead(Nickname) <= s then Some(Nickname)
    else if AssignHead(ProfileImage) <= s then Some(ProfileImage)
    else if AssignHead(WeeklyGoal) <= s then Some(WeeklyGoal)
    else None
  }

  /** One assignment at the start of `s`: its column, its value, and the rest. */
  function ReadAssignment(s: string): (r: Option<(Column, string, string)>)
    ensures r.Some? ==> s == Assignment(r.value.0, r.value.1) + r.value.2
  {
    match ColumnAt(s)
    case None => None
    case Some(c) =>
      var head := AssignHead(c);
      match ReadLiteral(s[|head|..])
      case None => None
      case Some(lit) =>
        LiteralAfterHead(head, s, lit.0, lit.1);
        Some((c, lit.0, lit.1))
  }

  lemma LiteralAfterHead(head: string, s: string, v: string, rest: string)
    requires head <= s
    requires s[|head|..] == Quoted(v) + rest
    ensures s == head + Quoted(v) + rest
  {
    assert s == head + s[|head|..];
  }

  /** A SET list read back into (column, value) pairs. */
  function ReadAssignments(s: string): Option<seq<(Column, string)>>
    decreases |s|
  {
    if s == [] then Some([])
    else
      match ReadAssignment(s)
      case None => None
      case Some(a) =>
        if a.2 == [] then Some([(a.0, a.1)])
        else if Separator <= a.2 && |a.2| > |Separator| then
          match ReadAssignments(a.2[|Separator|..])
          case None => None
          case Some(more) => Some([(a.0, a.1)] + more)
        else None
  }

  lemma AssignmentRoundTrip(c: Column, v: string, rest: string)
    requires QuoteFree(v)
    ensures ReadAssignment(Assignment(c, v) + rest) == Some((c, v, rest))
  {
    var s := Assignment(c, v) + rest;
    assert s == AssignHead(c) + (Quoted(v) + rest);
    assert ColumnAt(s) == Some(c) by {
      assert s[0] == ColumnName(c)[0];
      match c
      case Nickname =>
      case ProfileImage => assert !(AssignHead(Nickname) <= s) by { assert AssignHead(Nickname)[0] != s[0]; }
      case WeeklyGoal =>
        assert !(AssignHead(Nickname) <= s) by { assert AssignHead(Nickname)[0] != s[0]; }
        assert !(AssignHead(ProfileImage) <= s) by { assert AssignHead(ProfileImage)[0] != s[0]; }
    }
    assert s[|AssignHead(c)|..] == Quoted(v) + rest;
    LiteralRoundTrip(v, rest);
  }

  lemma JoinStartsWithFirst(parts: seq<string>, sep: string)
    requires |parts| > 0
    ensures parts[0] <= Join(parts, sep)
  {
  }

  lemma ReadLastAssignment(c: Column, v: string)
    requires QuoteFree(v)
    ensures ReadAssignments(Assignment(c, v)) == Some([(c, v)])
  {
    AssignmentRoundTrip(c, v, []);
    assert Assignment(c, v) + [] == Assignment(c, v);
  }

  lemma ReadNextAssignment(c: Column, v: string, tail: string)
    requires QuoteFree(v)
    requires |tail| > 0
    ensures ReadAssignments(Assignment(c, v) + (Separator + tail))
            == (match ReadAssignments(tail) case None => None case Some(more) => Some([(c, v)] + more))
  {
    AssignmentRoundTrip(c, v, Separator + tail);
    assert (Separator + tail)[|Separator|..] == tail;
  }

  /** Joining rendered assignments with quote-free values and reading the
      result back recovers the (column, value) pairs in order. */
  lemma {:induction false} SetListRoundTrip(fields: seq<(Column, string)>)
    requires forall i :: 0 <= i < |fields| ==> QuoteFree(fields[i].1)
    ensures ReadAssignments(Join(Render(fields), Separator)) == Some(fields)
    decreases |fields|
  {
    if fields == [] {
      return;
    }
    var c, v := fields[0].0, fields[0].1;
    var rs := Render(fields);
    if |fields| == 1 {
      ReadLastAssignment(c, v);
      assert fields == [(c, v)];
    } else {
      var rest := fields[1..];
      var tail := Join(Render(rest), Separator);
      assert rs[1..] == Render(rest);
      assert Join(rs, Separator) == Assignment(c, v) + (Separator + tail);
      JoinStartsWithFirst(Render(rest), Separator);
      SetListRoundTrip(rest);
      ReadNextAssignment(c, v, tail);
      assert [(c, v)] + rest == fields;
    }
  }

  // -------------------------------------------------- the record update

  /** One assignment applied to a user record. */
  function Assign(u: User, c: Column, v: string): User {
    match c
    case Nickname => u.(nickname := v)
    case ProfileImage => u.(profileImage := v)
    case WeeklyGoal => u.(weeklyGoal := v)
  }

  /** A SET list applied left to right. */
  function ApplyAssignments(u: User, fields: seq<(Column, string)>): User
    decreases |fields|
  {
    if fields == [] then u else ApplyAssignments(Assign(u, fields[0].0, fields[0].1), fields[1..])
  }

  /** The sparse update PutUser stands for: each non-empty argument
      overwrites its column; empty arguments, the id, the username and the
      email are left as they were. */
  function ApplyProfileUpdate(u: User, nickname: string, profileImage: string, weeklyGoal: string): (r: User)
    ensures r.userId == u.userId && r.username == u.username && r.email == u.email
    ensures r.nickname == (if nickname != "" then nickname else u.nickname)
    ensures r.profileImage == (if profileImage != "" then profileImage else u.profileImage)
    ensures r.weeklyGoal == (if weeklyGoal != "" then weeklyGoal else u.weeklyGoal)
  {
    User(
      u.userId,
      u.username,
      if profileImage != "" then profileImage else u.profileImage,
      if weeklyGoal != "" then weeklyGoal else u.weeklyGoal,
      u.email,
      if nickname != "" then nickname else u.nickname)
  }

  lemma {:induction false} ApplyAssignmentsAppend(u: User, a: seq<(Column, string)>, b: seq<(Column, string)>)
    ensures ApplyAssignments(u, a + b) == ApplyAssignments(ApplyAssignments(u, a), b)
    decreases |a|
  {
    if a == [] {
      assert a + b == b;
    } else {
      assert (a + b)[1..] == a[1..] + b;
      ApplyAssignmentsAppend(Assign(u, a[0].0, a[0].1), a[1..], b);
    }
  }

  /** When no value holds a quote, the SET clause PutUser builds reads
      back as exactly the non-empty fields, in the fixed order. */
  lemma SetClauseReadsBack(nickname: string, profileImage: string, weeklyGoal: string)
    requires QuoteFree(nickname) && QuoteFree(profileImage) && QuoteFree(weeklyGoal)
    ensures ReadAssignments(SetClause(nickname, profileImage, weeklyGoal))
            == Some(NonEmptyFields(FieldsInOrder(nickname, profileImage, weeklyGoal)))
  {
    var fs := NonEmptyFields(FieldsInOrder(nickname, profileImage, weeklyGoal));
    NonEmptyFieldsMembers(FieldsInOrder(nickname, profileImage, weeklyGoal));
    forall i | 0 <= i < |fs| ensures QuoteFree(fs[i].1) {
      assert fs[i] in FieldsInOrder(nickname, profileImage, weeklyGoal);
    }
    SetListRoundTrip(fs);
  }

  /** Applying the non-empty fields as assignments, in order, to any row
      is exactly the sparse update: the string the store builds and the
      record update it stands for agree. */
  lemma SparseAssignmentsApply(u: User, nickname: string, profileImage: string, weeklyGoal: string)
    ensures ApplyAssignments(u, NonEmptyFields(FieldsInOrder(nickname, profileImage, weeklyGoal)))
            == ApplyProfileUpdate(u, nickname, profileImage, weeklyGoal)
  {
    var p1, p2, p3 := Present(Nickname, nickname), Present(ProfileImage, profileImage), Present(WeeklyGoal, weeklyGoal);
    NonEmptyFieldsInOrder(nickname, profileImage, weeklyGoal);
    ApplyAssignmentsAppend(u, p1 + p2, p3);
    ApplyAssignmentsAppend(u, p1, p2);
  }
}

=== FILE: durations.dfy ===
/** Go's time.Duration arithmetic as the handlers use it, and the
    total-time aggregation of GetTotalDistanceAndTime
    (backend/handler/user.go). */
module Durations {
  import opened Wrappers

  const Second: int := 1_000_000_000
  const Hour: int := 3600 * Second
  const TwoTo64: int := 0x1_0000_0000_0000_0000
  const MinInt64: int := -0x8000_0000_0000_0000
  const MaxInt64: int := 0x7FFF_FFFF_FFFF_FFFF

  /** time.Duration: a signed 64-bit count of nanoseconds. */
  type Duration = x: int | MinInt64 <= x <= MaxInt64

  /** Two's-complement wrap-around of Go's int64 addition: the Duration
      congruent to `x` modulo 2^64; values already in range are unchanged. */
  function Wrap(x: int): (r: Duration)
    ensures (r - x) % TwoTo64 == 0
    ensures MinInt64 <= x <= MaxInt64 ==> r == x
  {
    var q := (x - MinInt64) / TwoTo64;
    assert x - MinInt64 == q * TwoTo64 + (x - MinInt64) % TwoTo64;
    assert ((x - MinInt64) % TwoTo64 + MinInt64) - x == -q * TwoTo64;
    ((x - MinInt64) % TwoTo64) + MinInt64
  }

  /** Wrapping an intermediate sum does not change the wrapped total. */
  lemma WrapAbsorbs(a: int, b: int)
    ensures Wrap(Wrap(a) + b) == Wrap(a + b)
  {
    var k := (Wrap(a) - a) / TwoTo64;
    assert Wrap(a) == a + k * TwoTo64;
    var x := a + b - MinInt64;
    assert Wrap(a) + b - MinInt64 == x + k * TwoTo64;
    assert (x + k * TwoTo64) % TwoTo64 == x % TwoTo64;
  }

  /** int(d.Seconds()): the whole seconds of a duration, truncated toward
      zero as Go's float-to-int conversion does. */
  function WholeSeconds(d: Duration): (s: int)
    ensures 0 <= d ==> 0 <= s && s * Second <= d < (s + 1) * Second
    ensures d < 0 ==> s <= 0 && (s - 1) * Second < d <= s * Second
  {
    var magnitude: int := if d >= 0 then d as int else 0 - d as int;
    if d >= 0 then magnitude / Second else -(magnitude / Second)
  }

  /** One stored workout session as the repository returns it; the
      duration is kept in its textual form. */
  datatype SessionRecord = SessionRecord(distance: real, time: string)

  /** What one record adds to the total time: its parsed duration, or 0
      when time.ParseDuration rejects the text. */
  function Contribution(parseDuration: string -> Option<Duration>, r: SessionRecord): (d: Duration)
    ensures parseDuration(r.time).None? ==> d == 0
    ensures parseDuration(r.time).Some? ==> d == parseDuration(r.time).value
  {
    match parseDuration(r.time)
    case Some(d) => d
    case None => 0
  }

  /** The exact sum of all contributions, without wrap-around. */
  function RawTotal(parseDuration: string -> Option<Duration>, records: seq<SessionRecord>): int
    decreases |records|
  {
    if records == [] then 0
    else RawTotal(parseDuration, records[..|records| - 1]) + Contribution(parseDuration, records[|records| - 1])
  }

  /** GetTotalDistanceAndTime, time component: a fetch error yields 0 and
      the error; otherwise the int64 sum of the parsed durations, which is
      0 for an empty list. */
  method GetTotalDistanceAndTime(
    sessionsOf: string -> Result<seq<SessionRecord>, Error>,
    parseDuration: string -> Option<Duration>,
    userId: string)
    returns (totalTime: Duration, err: Option<Error>)
    ensures sessionsOf(userId).Err? ==> totalTime == 0 && err == Some(sessionsOf(userId).error)
    ensures sessionsOf(userId).Ok? ==> err.None? && totalTime == Wrap(RawTotal(parseDuration, sessionsOf(userId).value))
    ensures sessionsOf(userId) == Ok([]) ==> totalTime == 0 && err.None?
  {
    var fetched := sessionsOf(userId);
    if fetched.Err? {
      return 0, Some(fetched.error);
    }
    var records := fetched.value;
    var t: Duration := 0;
    var i := 0;
    while i < |records|
      invariant 0 <= i <= |records|
      invariant t == Wrap(RawTotal(parseDuration, records[..i]))
    {
      var tmp := Contribution(parseDuration, records[i]);
      assert records[..i + 1][..i] == records[..i];
      WrapAbsorbs(RawTotal(parseDuration, records[..i]), tmp);
      t := Wrap(t + tmp);
      i := i + 1;
    }
    assert records[..|records|] == records;
    return t, None;
  }

  lemma {:induction false} RawTotalAppend(parseDuration: string -> Option<Duration>, a: seq<SessionRecord>, b: seq<SessionRecord>)
    ensures RawTotal(parseDuration, a + b) == RawTotal(parseDuration, a) + RawTotal(parseDuration, b)
    decreases |b|
  {
    if b == [] {
      assert a + b == a;
    } else {
      var n := |b| - 1;
      assert (a + b)[..|a + b| - 1] == a + b[..n];
      RawTotalAppend(parseDuration, a, b[..n]);
    }
  }

  /** The total time does not depend on the order of the records: any
      permutation of them sums to the same value. */
  lemma {:induction false} RawTotalPermutation(parseDuration: string -> Option<Duration>, s: seq<SessionRecord>, t: seq<SessionRecord>)
    requires multiset(s) == multiset(t)
    ensures RawTotal(parseDuration, s) == RawTotal(parseDuration, t)
    decreases |s|
  {
    if s == [] {
      assert |t| == |multiset(t)| == 0;
    } else {
      var n := |s| - 1;
      var x := s[n];
      assert s == s[..n] + [x];
      assert x in multiset(t);
      var i :| 0 <= i < |t| && t[i] == x;
      var t' := t[..i] + t[i + 1..];
      assert t == t[..i] + [x] + t[i + 1..];
      assert multiset(s[..n]) == multiset(t') by {
        assert multiset(s) == multiset(s[..n]) + multiset{x};
        assert multiset(t) == multiset(t[..i]) + multiset{x} + multiset(t[i + 1..]);
        assert multiset(t') == multiset(t[..i]) + multiset(t[i + 1..]);
        assert multiset(s[..n]) == multiset(s) - multiset{x};
        assert multiset(t') == multiset(t) - multiset{x};
      }
      RawTotalPermutation(parseDuration, s[..n], t');
      RawTotalAppend(parseDuration, t[..i] + [x], t[i + 1..]);
      RawTotalAppend(parseDuration, t[..i], [x]);
      RawTotalAppend(parseDuration, t[..i], t[i + 1..]);
      assert RawTotal(parseDuration, [x]) == Contribution(parseDuration, x) by {
        assert [x][..0] == [];
      }
    }
  }

  /** The records whose time text parses. */
  function Parseable(parseDuration: string -> Option<Duration>, records: seq<SessionRecord>): (r: seq<SessionRecord>)
    ensures forall x :: x in r <==> x in records && parseDuration(x.time).Some?
    decreases |records|
  {
    if records == [] then []
    else
      var n := |records| - 1;
      assert forall x :: x in records <==> x in records[..n] || x == records[n] by {
        assert records == records[..n] + [records[n]];
      }
      Parseable(parseDuration, records[..n]) + (if parseDuration(records[n].time).Some? then [records[n]] else [])
  }

  /** Records whose time does not parse contribute nothing: dropping them
      leaves the total unchanged. */
  lemma {:induction false} UnparseableContributeNothing(parseDuration: string -> Option<Duration>, records: seq<SessionRecord>)
    ensures RawTotal(parseDuration, Parseable(parseDuration, records)) == RawTotal(parseDuration, records)
    decreases |records|
  {
    if records != [] {
      var n := |records| - 1;
      var rest := Parseable(parseDuration, records[..n]);
      UnparseableContributeNothing(parseDuration, records[..n]);
      if parseDuration(records[n].time).Some? {
        RawTotalAppend(parseDuration, rest, [records[n]]);
        assert [records[n]][..0] == [];
      } else {
        assert rest + [] == rest;
      }
    }
  }
}

=== FILE: handlers.dfy ===
/** The outcome logic of the user handlers (backend/handler/user.go):
    which status each request ends with, which collaborators it calls and
    with what arguments, and what the response carries. The repository
    layer, the token library, uuid generation and float parsing are
    oracles collected in `Env`; every handler is a pure function of its
    environment and its request. */
module Handlers {
  import opened Wrappers
  import opened Bearer
  import opened Durations
  import Database

  const StatusOK: int := 200
  const StatusUnauthorized: int := 401
  const StatusForbidden: int := 403
  const StatusInternalServerError: int := 500

  /** time.Hour * 1200: the lifetime of every token login and signup issue. */
  const SessionLifetime: Duration := 1200 * Hour

  /** The decoded signup body (a model.User in the source). */
  datatype SignupRequest = SignupRequest(username: string, password: string, email: string, weight: string)

  /** The decoded login body. */
  datatype LoginRequest = LoginRequest(username: string, password: string)

  /** The two fields UpdateProfile reads from the decoded body (a
      repository.User in the source). */
  datatype ProfileUpdateRequest = ProfileUpdateRequest(profileImage: string, weeklyGoal: string)

  /** A float64 as far as the handlers are concerned: a finite value, or
      one of NaN, +Inf and -Inf, which json.Marshal refuses to encode. */
  datatype Float64 = Finite(value: real) | NonFinite

  /** The collaborators the handlers call, as oracles. */
  datatype Env = Env(
    createUser: (string, string, string, string, string) -> Option<Error>,
    passwordByUsername: string -> Result<string, Error>,
    userIdOf: string -> Result<string, Error>,
    getUser: string -> Result<Database.User, Error>,
    bestRecord: string -> Result<(string, Duration), Error>,
    totalRecord: string -> Result<(Float64, Duration), Error>,
    putUser: (string, string, string) -> Option<Error>,
    generateToken: (string, Duration) -> Result<string, Error>,
    validateToken: string -> Result<string, Error>,
    parseFloat: string -> Float64)

  /** One call a handler makes to a collaborator, with its arguments. */
  datatype Call =
    | CreateUserCall(id: string, username: string, password: string, email: string, weight: string)
    | GetPasswordCall(username: string)
    | GetUserIdCall(username: string)
    | GetUserCall(userId: string)
    | BestRecordCall(userId: string)
    | TotalRecordCall(userId: string)
    | PutUserCall(userId: string, profileImage: string, weeklyGoal: string)
    | GenerateTokenCall(subject: string, lifetime: Duration)
    | ValidateTokenCall(token: string)
  {
    /** Whether the call changes the store. */
    predicate Writes() {
      CreateUserCall? || PutUserCall?
    }
  }

  /** The profile response. */
  datatype ProfileView = ProfileView(
    userId: string,
    username: string,
    profileImage: string,
    totalDistance: real,
    totalTime: int,
    bestDistance: real,
    bestTime: int,
    weeklyGoal: string,
    nickname: string)

  datatype Body =
    | NoBody
    | Message(text: string)
    | TokenBody(message: string, userId: string, token: string)
    | ProfileBody(view: ProfileView)

  /** Status, body, and the calls made, in order. */
  datatype Response = Response(status: int, body: Body, calls: seq<Call>)

  /** The token requests among the calls: (subject, lifetime), in order. */
  function TokenRequests(calls: seq<Call>): (r: seq<(string, Duration)>)
    ensures |r| <= |calls|
    ensures forall c :: c in calls && c.GenerateTokenCall? ==> (c.subject, c.lifetime) in r
    decreases |calls|
  {
    if calls == [] then []
    else
      var rest := TokenRequests(calls[1..]);
      assert forall c :: c in calls ==> c == calls[0] || c in calls[1..];
      if calls[0].GenerateTokenCall? then [(calls[0].subject, calls[0].lifetime)] + rest else rest
  }

  // -------------------------------------------------------- authentication

  /** The outcome of the header guard followed by token validation. */
  datatype Auth = NoBearer | Rejected(token: string) | Authenticated(token: string, subject: string)

  /** The guard-then-validate prologue of Logout, Profile and
      UpdateProfile: a header without the Bearer prefix is refused before
      any validation; otherwise exactly the extracted token is validated
      and its subject becomes the requestor. */
  function Authenticate(env: Env, header: string): (a: Auth)
    ensures a.NoBearer? <==> ExtractBearer(header).None?
    ensures !a.NoBearer? ==> Scheme + a.token == header
    ensures a.Authenticated? <==> ExtractBearer(header).Some? && env.validateToken(ExtractBearer(header).value).Ok?
    ensures a.Authenticated? ==> a.subject == env.validateToken(a.token).value
  {
    match ExtractBearer(header)
    case None => NoBearer
    case Some(t) =>
      match env.validateToken(t)
      case Err(_) => Rejected(t)
      case Ok(subject) => Authenticated(t, subject)
  }

  /** The calls the prologue makes: none when the guard refuses. */
  function AuthCalls(a: Auth): seq<Call> {
    if a.NoBearer? then [] else [ValidateTokenCall(a.token)]
  }

  // ---------------------------------------------------------------- signup

  /** SignUpHandler. `freshId` is the value uuid.NewString returns. */
  function SignUp(env: Env, req: Option<SignupRequest>, freshId: string): (r: Response)
    ensures r.status == StatusOK || r.status == StatusInternalServerError
    ensures req.None? ==> r.status == StatusInternalServerError && r.calls == []
    ensures req.Some? ==>
              var create := env.createUser(freshId, req.value.username, req.value.password, req.value.email, req.value.weight);
              r.calls == [CreateUserCall(freshId, req.value.username, req.value.password, req.value.email, req.value.weight)]
                         + (if create.None? then [GenerateTokenCall(freshId, SessionLifetime)] else [])
    ensures req.Some? && env.createUser(freshId, req.value.username, req.value.password, req.value.email, req.value.weight).Some? ==>
              r.status == StatusInternalServerError && TokenRequests(r.calls) == []
    ensures r.status == StatusOK <==>
              && req.Some?
              && env.createUser(freshId, req.value.username, req.value.password, req.value.email, req.value.weight).None?
              && env.generateToken(freshId, SessionLifetime).Ok?
    ensures r.status == StatusOK ==>
              && TokenRequests(r.calls) == [(freshId, SessionLifetime)]
              && r.body == TokenBody("Signup successful", "", env.generateToken(freshId, SessionLifetime).value)
    ensures r.status != StatusOK ==> r.body == NoBody
  {
    match req
    case None => Response(StatusInternalServerError, NoBody, [])
    case Some(q) =>
      var create := CreateUserCall(freshId, q.username, q.password, q.email, q.weight);
      if env.createUser(freshId, q.username, q.password, q.email, q.weight).Some? then
        Response(StatusInternalServerError, NoBody, [create])
      else
        var calls := [create, GenerateTokenCall(freshId, SessionLifetime)];
        match env.generateToken(freshId, SessionLifetime)
        case Err(_) => Response(StatusInternalServerError, NoBody, calls)
        case Ok(token) => Response(StatusOK, TokenBody("Signup successful", "", token), calls)
  }

  // ----------------------------------------------------------------- login

  /** LoginHandler. An unknown user is refused (401) before any password
      comparison, a wrong password (403) before the id lookup; neither
      requests a token. Success requests exactly one token, for the id
      looked up for that username, with the session lifetime. */
  function Login(env: Env, req: Option<LoginRequest>): (r: Response)
    ensures r.status in {StatusOK, StatusUnauthorized, StatusForbidden, StatusInternalServerError}
    ensures req.None? ==> r.status == StatusInternalServerError && r.calls == []
    ensures r.status == StatusUnauthorized <==> req.Some? && env.passwordByUsername(req.value.username).Err?
    ensures r.status == StatusForbidden <==>
              && req.Some?
              && env.passwordByUsername(req.value.username).Ok?
              && env.passwordByUsername(req.value.username).value != req.value.password
    ensures r.status == StatusUnauthorized || r.status == StatusForbidden ==>
              r.calls == [GetPasswordCall(req.value.username)] && TokenRequests(r.calls) == []
    ensures r.status == StatusOK ==> req.Some? && env.userIdOf(req.value.username).Ok?
    ensures r.status == StatusOK <==>
              && req.Some?
              && env.passwordByUsername(req.value.username) == Ok(req.value.password)
              && env.userIdOf(req.value.username).Ok?
              && env.generateToken(env.userIdOf(req.value.username).value, SessionLifetime).Ok?
    ensures r.status == StatusOK ==>
              var uid := env.userIdOf(req.value.username).value;
              && env.generateToken(uid, SessionLifetime).Ok?
              && r.calls == [GetPasswordCall(req.value.username), GetUserIdCall(req.value.username), GenerateTokenCall(uid, SessionLifetime)]
              && TokenRequests(r.calls) == [(uid, SessionLifetime)]
              && r.body == TokenBody("Login successful", uid, env.generateToken(uid, SessionLifetime).value)
    ensures r.status != StatusOK ==> r.body == NoBody
    ensures forall c :: c in r.calls ==> !c.Writes()
  {
    match req
    case None => Response(StatusInternalServerError, NoBody, [])
    case Some(q) =>
      var lookup := GetPasswordCall(q.username);
      match env.passwordByUsername(q.username)
      case Err(_) => Response(StatusUnauthorized, NoBody, [lookup])
      case Ok(pw) =>
        if pw != q.password then Response(StatusForbidden, NoBody, [lookup])
        else
          match env.userIdOf(q.username)
          case Err(_) => Response(StatusInternalServerError, NoBody, [lookup, GetUserIdCall(q.username)])
          case Ok(uid) =>
            var calls := [lookup, GetUserIdCall(q.username), GenerateTokenCall(uid, SessionLifetime)];
            match env.generateToken(uid, SessionLifetime)
            case Err(_) => Response(StatusInternalServerError, NoBody, calls)
            case Ok(token) => Response(StatusOK, TokenBody("Login successful", uid, token), calls)
  }

  // ---------------------------------------------------------------- logout

  /** LogoutHandler. After the prologue it requests a zero-lifetime token
      for the same subject and discards it: the response carries only a
      message, nothing is written, and the presented token is not revoked. */
  function Logout(env: Env, header: string): (r: Response)
    ensures r.status in {StatusOK, StatusUnauthorized, StatusInternalServerError}
    ensures ExtractBearer(header).None? ==> r.status == StatusUnauthorized && r.calls == []
    ensures r.status == StatusUnauthorized <==> !Authenticate(env, header).Authenticated?
    ensures r.status != StatusUnauthorized ==>
              var a := Authenticate(env, header);
              && r.calls == [ValidateTokenCall(a.token), GenerateTokenCall(a.subject, 0)]
              && TokenRequests(r.calls) == [(a.subject, 0)]
    ensures r.status == StatusInternalServerError <==>
              Authenticate(env, header).Authenticated? && env.generateToken(Authenticate(env, header).subject, 0).Err?
    ensures r.status == StatusOK ==> r.body == Message("Logout successful")
    ensures r.status != StatusOK ==> r.body == NoBody
    ensures forall c :: c in r.calls ==> !c.Writes()
  {
    var a := Authenticate(env, header);
    match a
    case NoBearer => Response(StatusUnauthorized, NoBody, [])
    case Rejected(t) => Response(StatusUnauthorized, NoBody, AuthCalls(a))
    case Authenticated(t, subject) =>
      var calls := AuthCalls(a) + [GenerateTokenCall(subject, 0)];
      if env.generateToken(subject, 0).Err? then Response(StatusInternalServerError, NoBody, calls)
      else Response(StatusOK, Message("Logout successful"), calls)
  }

  // --------------------------------------------------------------- profile

  /** GetBestRecordByUserId: a direct delegation to the repository. */
  function GetBestRecordByUserId(env: Env, userId: string): (r: Result<(string, Duration), Error>)
    ensures r == env.bestRecord(userId)
  {
    env.bestRecord(userId)
  }

  /** The best-record figures the profile shows: the repository's, or the
      defaults "0.00" and 0 when it fails. */
  function BestOrDefault(best: Result<(string, Duration), Error>): (r: (string, Duration))
    ensures best.Err? ==> r == ("0.00", 0)
    ensures best.Ok? ==> r == best.value
  {
    match best
    case Ok(b) => b
    case Err(_) => ("0.00", 0)
  }

  /** The best distance the profile shows: the parsed best-record
      distance, or the parse of the default "0.00". */
  function BestDistance(env: Env, pathUserId: string): Float64 {
    env.parseFloat(BestOrDefault(GetBestRecordByUserId(env, pathUserId)).0)
  }

  /** ProfileHandler. The static fields come from the token's subject, the
      aggregates from the path's `userId`, which need not be the same user.
      A failing best-record lookup falls back to zero defaults and does not
      abort; a failing total-record lookup does. json.Marshal refuses a NaN
      or infinite distance, which ends the request with 500 after every
      lookup has been made. The response's user id is never filled in. */
  function Profile(env: Env, pathUserId: string, header: string): (r: Response)
    ensures r.status in {StatusOK, StatusUnauthorized, StatusInternalServerError}
    ensures ExtractBearer(header).None? ==> r.status == StatusUnauthorized && r.calls == []
    ensures r.status == StatusUnauthorized <==> !Authenticate(env, header).Authenticated?
    ensures r.status == StatusOK <==>
              && Authenticate(env, header).Authenticated?
              && env.getUser(Authenticate(env, header).subject).Ok?
              && env.totalRecord(pathUserId).Ok?
              && env.totalRecord(pathUserId).value.0.Finite?
              && BestDistance(env, pathUserId).Finite?
    ensures Authenticate(env, header).Authenticated? && env.getUser(Authenticate(env, header).subject).Ok? ==>
              var a := Authenticate(env, header);
              r.calls == [ValidateTokenCall(a.token), GetUserCall(a.subject), BestRecordCall(pathUserId), TotalRecordCall(pathUserId)]
    ensures r.status == StatusOK ==>
              var u := env.getUser(Authenticate(env, header).subject).value;
              var total := env.totalRecord(pathUserId).value;
              && r.body.ProfileBody?
              && r.body.view.userId == ""
              && r.body.view.username == u.username
              && r.body.view.profileImage == u.profileImage
              && r.body.view.weeklyGoal == u.weeklyGoal
              && r.body.view.nickname == u.nickname
              && r.body.view.totalDistance == total.0.value
              && r.body.view.totalTime == WholeSeconds(total.1)
    ensures r.status == StatusOK && env.bestRecord(pathUserId).Err? ==>
              r.body.view.bestDistance == env.parseFloat("0.00").value && r.body.view.bestTime == 0
    ensures r.status == StatusOK && env.bestRecord(pathUserId).Ok? ==>
              && r.body.view.bestDistance == env.parseFloat(env.bestRecord(pathUserId).value.0).value
              && r.body.view.bestTime == WholeSeconds(env.bestRecord(pathUserId).value.1)
    ensures r.status != StatusOK ==> r.body == NoBody
    ensures forall c :: c in r.calls ==> !c.Writes()
  {
    var a := Authenticate(env, header);
    match a
    case NoBearer => Response(StatusUnauthorized, NoBody, [])
    case Rejected(t) => Response(StatusUnauthorized, NoBody, AuthCalls(a))
    case Authenticated(t, requestor) =>
      match env.getUser(requestor)
      case Err(_) => Response(StatusInternalServerError, NoBody, AuthCalls(a) + [GetUserCall(requestor)])
      case Ok(u) =>
        var best := BestOrDefault(GetBestRecordByUserId(env, pathUserId));
        var f := env.parseFloat(best.0);
        var calls := AuthCalls(a) + [GetUserCall(requestor), BestRecordCall(pathUserId), TotalRecordCall(pathUserId)];
        match env.totalRecord(pathUserId)
        case Err(_) => Response(StatusInternalServerError, NoBody, calls)
        case Ok(total) =>
          if total.0.NonFinite? || f.NonFinite? then Response(StatusInternalServerError, NoBody, calls)
          else
            var view := ProfileView(
              "", u.username, u.profileImage,
              total.0.value, WholeSeconds(total.1),
              f.value, WholeSeconds(best.1),
              u.weeklyGoal, u.nickname);
            Response(StatusOK, ProfileBody(view), calls)
  }

  /** A user without a best record, when "0.00" parses to zero as it does
      in Go: the fallback never aborts the request, which succeeds exactly
      when the other lookups do and the total distance is finite, and it
      shows a best record of distance 0 and time 0. */
  lemma ProfileWithoutBestRecord(env: Env, pathUserId: string, header: string)
    requires env.parseFloat("0.00") == Finite(0.0)
    requires env.bestRecord(pathUserId).Err?
    ensures var r := Profile(env, pathUserId, header);
            && (r.status == StatusOK <==>
                  && Authenticate(env, header).Authenticated?
                  && env.getUser(Authenticate(env, header).subject).Ok?
                  && env.totalRecord(pathUserId).Ok?
                  && env.totalRecord(pathUserId).value.0.Finite?)
            && (r.status == StatusOK ==> r.body.view.bestDistance == 0.0 && r.body.view.bestTime == 0)
  {
  }

  // -------------------------------------------------------- profile update

  /** UpdateProfileHandler. The token is checked before the body is
      decoded, and the update always targets the token's subject: the
      body's own user id is never consulted. Only the profile image and
      the weekly goal are forwarded. */
  function UpdateProfile(env: Env, header: string, req: Option<ProfileUpdateRequest>): (r: Response)
    ensures r.status in {StatusOK, StatusUnauthorized, StatusInternalServerError}
    ensures ExtractBearer(header).None? ==> r.status == StatusUnauthorized && r.calls == []
    ensures r.status == StatusUnauthorized <==> !Authenticate(env, header).Authenticated?
    ensures forall c :: c in r.calls && c.PutUserCall? ==>
              && Authenticate(env, header).Authenticated?
              && req.Some?
              && c == PutUserCall(Authenticate(env, header).subject, req.value.profileImage, req.value.weeklyGoal)
    ensures req.None? ==> forall c :: c in r.calls ==> !c.Writes()
    ensures r.status == StatusOK <==>
              && Authenticate(env, header).Authenticated?
              && req.Some?
              && env.putUser(Authenticate(env, header).subject, req.value.profileImage, req.value.weeklyGoal).None?
    ensures r.status == StatusOK ==>
              var a := Authenticate(env, header);
              && r.calls == [ValidateTokenCall(a.token), PutUserCall(a.subject, req.value.profileImage, req.value.weeklyGoal)]
              && r.body == Message("Profile updated successfully.")
    ensures r.status != StatusOK ==> r.body == NoBody
  {
    var a := Authenticate(env, header);
    match a
    case NoBearer => Response(StatusUnauthorized, NoBody, [])
    case Rejected(t) => Response(StatusUnauthorized, NoBody, AuthCalls(a))
    case Authenticated(t, userId) =>
      match req
      case None => Response(StatusInternalServerError, NoBody, AuthCalls(a))
      case Some(q) =>
        var calls := AuthCalls(a) + [PutUserCall(userId, q.profileImage, q.weeklyGoal)];
        if env.putUser(userId, q.profileImage, q.weeklyGoal).Some? then Response(StatusInternalServerError, NoBody, calls)
        else Response(StatusOK, Message("Profile updated successfully."), calls)
  }
}

=== FILE: sessions.dfy ===
/** The handlers run against a concrete credential store and a token
    service whose tokens validate to their subject: what login, signup and
    the token-protected handlers then promise about identities. */
module Sessions {
  import opened Wrappers
  import opened Bearer
  import opened Handlers
  import opened Durations

  /** What the store keeps per username for authentication. */
  datatype Account = Account(id: string, password: string)

  /** The store, keyed by username. */
  type Store = map<string, Account>

  const NotFound: Error := Error("no rows in result set")
  const Conflict: Error := Error("duplicate username")

  /** The environment whose repository answers from `store`: password and
      id lookups succeed exactly for stored usernames, and creating a user
      fails exactly when the username is taken. */
  function WithStore(env: Env, store: Store): Env {
    env.(
      passwordByUsername := (u: string) => if u in store then Ok(store[u].password) else Err(NotFound),
      userIdOf := (u: string) => if u in store then Ok(store[u].id) else Err(NotFound),
      createUser := (id: string, u: string, pw: string, email: string, weight: string) =>
        if u in store then Some(Conflict) else None)
  }

  /** Login against a store: an unknown username is refused with 401, a
      known one with the wrong password with 403, and success issues the
      stored id's token; a 500 is left only for a failing token library. */
  lemma LoginAgainstStore(env: Env, store: Store, username: string, password: string)
    ensures var r := Login(WithStore(env, store), Some(LoginRequest(username, password)));
            && (r.status == StatusUnauthorized <==> username !in store)
            && (r.status == StatusForbidden <==> username in store && store[username].password != password)
            && (r.status == StatusOK ==> username in store && TokenRequests(r.calls) == [(store[username].id, SessionLifetime)])
            && (r.status == StatusInternalServerError ==>
                  username in store && env.generateToken(store[username].id, SessionLifetime).Err?)
  {
  }

  /** Signing up with a taken username fails before any token is requested. */
  lemma SignUpDuplicateUsername(env: Env, store: Store, req: SignupRequest, freshId: string)
    requires req.username in store
    ensures SignUp(WithStore(env, store), Some(req), freshId).status == StatusInternalServerError
    ensures TokenRequests(SignUp(WithStore(env, store), Some(req), freshId).calls) == []
  {
  }

  /** The token service returns, for every token it issues with a
      positive lifetime, that token's subject. */
  ghost predicate TokensRoundTrip(env: Env) {
    forall subject, lifetime :: 0 < lifetime && env.generateToken(subject, lifetime).Ok? ==>
      env.validateToken(env.generateToken(subject, lifetime).value) == Ok(subject)
  }

  /** With such a token service, the token a successful login returns,
      presented as a bearer header, authenticates as the id looked up for
      the username, and a profile update made with it targets that id. */
  lemma LoginSessionIdentifiesUser(env: Env, req: LoginRequest, profile: ProfileUpdateRequest)
    requires TokensRoundTrip(env)
    requires Login(env, Some(req)).status == StatusOK
    ensures var uid := env.userIdOf(req.username).value;
            var token := Login(env, Some(req)).body.token;
            && Authenticate(env, Scheme + token) == Authenticated(token, uid)
            && forall c :: c in UpdateProfile(env, Scheme + token, Some(profile)).calls && c.PutUserCall? ==> c.userId == uid
  {
    var uid := env.userIdOf(req.username).value;
    var token := Login(env, Some(req)).body.token;
    BearerRoundTrip(token);
    assert env.validateToken(token) == Ok(uid);
  }

  /** With such a token service, the token a successful signup returns
      authenticates as the freshly generated id. */
  lemma SignUpSessionIdentifiesUser(env: Env, req: SignupRequest, freshId: string)
    requires TokensRoundTrip(env)
    requires SignUp(env, Some(req), freshId).status == StatusOK
    ensures var token := SignUp(env, Some(req), freshId).body.token;
            Authenticate(env, Scheme + token) == Authenticated(token, freshId)
  {
    BearerRoundTrip(SignUp(env, Some(req), freshId).body.token);
  }

  /** Signup is not atomic: when the token library fails after the user
      was created, the answer is 500 but the account stays in the store,
      so a retry with the same username fails as a duplicate. */
  lemma SignUpTokenFailureKeepsAccount(env: Env, store: Store, req: SignupRequest, freshId: string, retryId: string)
    requires req.username !in store
    requires env.generateToken(freshId, SessionLifetime).Err?
    ensures var r := SignUp(WithStore(env, store), Some(req), freshId);
            && r.status == StatusInternalServerError
            && r.calls == [CreateUserCall(freshId, req.username, req.password, req.email, req.weight), GenerateTokenCall(freshId, SessionLifetime)]
            && WithStore(env, store).createUser(freshId, req.username, req.password, req.email, req.weight).None?
    ensures var after := store[req.username := Account(freshId, req.password)];
            var retry := SignUp(WithStore(env, after), Some(req), retryId);
            retry.status == StatusInternalServerError && TokenRequests(retry.calls) == []
  {
    var after := store[req.username := Account(freshId, req.password)];
    SignUpDuplicateUsername(env, after, req, retryId);
  }

  /** Logging out with a login token: the answer is 200 exactly when the
      zero-lifetime token can be issued, and nothing is written. The token
      oracles are pure, as for a stateless JWT, so issuing the zero-lifetime
      token has no effect on later validations: under that assumption the
      same header still authenticates as the same user afterwards. */
  lemma LogoutKeepsSession(env: Env, req: LoginRequest)
    requires TokensRoundTrip(env)
    requires Login(env, Some(req)).status == StatusOK
    ensures var uid := env.userIdOf(req.username).value;
            var token := Login(env, Some(req)).body.token;
            var r := Logout(env, Scheme + token);
            && (r.status == StatusOK <==> env.generateToken(uid, 0).Ok?)
            && (r.status == StatusInternalServerError <==> env.generateToken(uid, 0).Err?)
            && TokenRequests(r.calls) == [(uid, 0)]
            && (forall c :: c in r.calls ==> !c.Writes())
            && Authenticate(env, Scheme + token) == Authenticated(token, uid)
  {
    LoginSessionIdentifiesUser(env, req, ProfileUpdateRequest("", ""));
  }

  /** Reading a profile with a login token: the static fields are the
      logged-in user's, while the aggregates are looked up for the path's
      id, whoever that is; a missing best record shows as time 0. */
  lemma ProfileWithLoginToken(env: Env, req: LoginRequest, pathUserId: string)
    requires TokensRoundTrip(env)
    requires Login(env, Some(req)).status == StatusOK
    ensures var uid := env.userIdOf(req.username).value;
            var token := Login(env, Some(req)).body.token;
            var r := Profile(env, pathUserId, Scheme + token);
            && (r.status == StatusOK <==>
                  && env.getUser(uid).Ok?
                  && env.totalRecord(pathUserId).Ok?
                  && env.totalRecord(pathUserId).value.0.Finite?
                  && BestDistance(env, pathUserId).Finite?)
            && (env.getUser(uid).Ok? ==> GetUserCall(uid) in r.calls && TotalRecordCall(pathUserId) in r.calls)
            && (r.status == StatusOK ==>
                  && r.body.view.username == env.getUser(uid).value.username
                  && r.body.view.nickname == env.getUser(uid).value.nickname
                  && r.body.view.profileImage == env.getUser(uid).value.profileImage
                  && r.body.view.weeklyGoal == env.getUser(uid).value.weeklyGoal
                  && r.body.view.totalDistance == env.totalRecord(pathUserId).value.0.value
                  && r.body.view.totalTime == WholeSeconds(env.totalRecord(pathUserId).value.1))
            && (r.status == StatusOK && env.bestRecord(pathUserId).Err? ==> r.body.view.bestTime == 0)
  {
    LoginSessionIdentifiesUser(env, req, ProfileUpdateRequest("", ""));
  }
}

=== FILE: sql_text.dfy ===
/** The textual side of the SQL statements built by the credential store:
    single-quoted literals, comma-separated lists, and an idealised lexer that
    reads a literal back the way a SQL engine would. */
module SqlText {
  import opened Wrappers

  const QuoteChar: char := '\''

  /** Separator used by strings.Join in the store: a comma and a space. */
  const Separator: string := ", "

  predicate QuoteFree(s: string) {
    QuoteChar !in s
  }

  /** A value embedded verbatim between single quotes, without escaping. */
  function Quoted(s: string): string {
    [QuoteChar] + s + [QuoteChar]
  }

  /** strings.Join: the parts with `sep` between consecutive ones. */
  function Join(parts: seq<string>, sep: string): string
    decreases |parts|
  {
    if |parts| == 0 then []
    else if |parts| == 1 then parts[0]
    else parts[0] + sep + Join(parts[1..], sep)
  }

  /** Every value quoted, in the same order. */
  function QuotedAll(vs: seq<string>): (r: seq<string>)
    ensures |r| == |vs|
    ensures forall i :: 0 <= i < |vs| ==> r[i] == Quoted(vs[i])
    decreases |vs|
  {
    if vs == [] then [] else [Quoted(vs[0])] + QuotedAll(vs[1..])
  }

  /** The text before the first quote character and the text after it;
      None when `s` holds no quote at all. */
  function SplitAtQuote(s: string): (r: Option<(string, string)>)
    ensures r.None? <==> QuoteFree(s)
    ensures r.Some? ==> QuoteFree(r.value.0) && s == r.value.0 + [QuoteChar] + r.value.1
    decreases |s|
  {
    if s == [] then None
    else if s[0] == QuoteChar then Some(([], s[1..]))
    else
      match SplitAtQuote(s[1..])
      case None => None
      case Some(p) => Some(([s[0]] + p.0, p.1))
  }

  /** How the engine's lexer reads a string literal at the start of `s`:
      its contents and the text that follows the closing quote. The
      doubled-quote escape of SQL is not modelled: the literal ends at the
      first quote after the opening one. */
  function ReadLiteral(s: string): (r: Option<(string, string)>)
    ensures r.Some? ==> QuoteFree(r.value.0) && s == Quoted(r.value.0) + r.value.1
    ensures r.None? <==> (|s| == 0 || s[0] != QuoteChar || QuoteFree(s[1..]))
  {
    if |s| > 0 && s[0] == QuoteChar then
      var r := SplitAtQuote(s[1..]);
      if r.Some? then
        assert s == [s[0]] + s[1..];
        r
      else r
    else None
  }

  lemma {:induction false} SplitAtQuoteOfQuoteFree(k: string, rest: string)
    requires QuoteFree(k)
    ensures SplitAtQuote(k + [QuoteChar] + rest) == Some((k, rest))
    decreases |k|
  {
    var s := k + [QuoteChar] + rest;
    if k == [] {
      assert s == [QuoteChar] + rest;
      assert s[1..] == rest;
    } else {
      assert k[0] != QuoteChar by { assert k[0] in k; }
      assert QuoteFree(k[1..]) by {
        forall c | c in k[1..] ensures c in k { }
      }
      SplitAtQuoteOfQuoteFree(k[1..], rest);
      assert s[1..] == k[1..] + [QuoteChar] + rest;
      assert [k[0]] + k[1..] == k;
    }
  }

  /** A quoted value followed by any text reads back as exactly that value
      and that text if, and only if, the value holds no quote character. */
  lemma LiteralRoundTrip(k: string, rest: string)
    ensures ReadLiteral(Quoted(k) + rest) == Some((k, rest)) <==> QuoteFree(k)
  {
    var s := Quoted(k) + rest;
    assert s[0] == QuoteChar;
    assert s[1..] == k + [QuoteChar] + rest;
    if QuoteFree(k) {
      SplitAtQuoteOfQuoteFree(k, rest);
    }
  }

  /** A non-empty list of literals separated by `Separator`, as in the
      VALUES part of an INSERT: the values read and the text after the last. */
  function ReadValueList(s: string): (r: Option<(seq<string>, string)>)
    ensures r.Some? ==> |r.value.0| > 0
    ensures r.Some? ==> forall i :: 0 <= i < |r.value.0| ==> QuoteFree(r.value.0[i])
    decreases |s|
  {
    match ReadLiteral(s)
    case None => None
    case Some(lit) =>
      var rest := lit.1;
      if Separator <= rest then
        match ReadValueList(rest[|Separator|..])
        case None => None
        case Some(more) => Some(([lit.0] + more.0, more.1))
      else Some(([lit.0], rest))
  }

  /** Joining quoted quote-free values and reading them back recovers the
      values, in order, and the text after the list. */
  lemma {:induction false} ValueListRoundTrip(vs: seq<string>, rest: string)
    requires |vs| > 0
    requires forall i :: 0 <= i < |vs| ==> QuoteFree(vs[i])
    requires !(Separator <= rest)
    ensures ReadValueList(Join(QuotedAll(vs), Separator) + rest) == Some((vs, rest))
    decreases |vs|
  {
    var q := QuotedAll(vs);
    if |vs| == 1 {
      assert Join(q, Separator) == Quoted(vs[0]);
      LiteralRoundTrip(vs[0], rest);
      assert vs == [vs[0]];
    } else {
      var tail := Join(QuotedAll(vs[1..]), Separator) + rest;
      assert q[1..] == QuotedAll(vs[1..]);
      assert Join(q, Separator) + rest == Quoted(vs[0]) + (Separator + tail);
      LiteralRoundTrip(vs[0], Separator + tail);
      assert (Separator + tail)[|Separator|..] == tail;
      ValueListRoundTrip(vs[1..], rest);
      assert [vs[0]] + vs[1..] == vs;
    }
  }
}

=== FILE: wrappers.dfy ===
/** Failure-carrying datatypes shared by every module of the model. */
module Wrappers {

  /** A value that may be absent. */
  datatype Option<+T> = None | Some(value: T)

  /** A value, or the error that prevented computing it. */
  datatype Result<+T, +E> = Ok(value: T) | Err(error: E)

  /** An opaque error as returned by the database driver, the token library
      or the repository layer; only its presence matters to the model. */
  datatype Error = Error(message: string)
}
